=== FILE: README.md ===
# cross-request relay, modelled in Dafny

cross-request is a browser extension that lets a web page make cross-origin
HTTP requests it could not make itself. The request is relayed over three
hops, matched end to end by a request id and a per-page token:

1. the **page client** (`js/inject/index.js`). `crossRequest(req)`
   normalises the request descriptor. It registers the caller's
   `success`/`error` callbacks on the window under
   `'cross_request_' + requestId` and posts a `fetch` envelope. Its
   `message` listener accepts only envelopes from the content script that
   carry the page's token. It runs the callback the broker's answer selects,
   then deletes the entry.
2. the **content script** (`js/content/index.js`). It forwards this page's
   request envelopes to the service worker unchanged. It relays the service
   worker's `fetch_callback` messages back to the page, re-tagged with
   `source = "cross_request_content"`.
3. the **broker** in the service worker (`js/service_worker/background.js`).
   `fetchData` builds the `fetch` call: the method is upper-cased, the mode
   is `no-cors`, and only a POST gets a body, chosen by content type. Every
   request it could start is answered by exactly one `fetch_callback`. On
   success that callback carries a response envelope: parsed JSON or raw
   text, plus status and headers. On failure it carries the rejection
   reason.

The **settings panel** (`js/popup.js`) checks the three tunables in order,
stopping at the first failure. It sends `updateConfig` only when all three
pass.

All values that cross the hops are modelled as JavaScript values
(`JsValue.Value`). Each script's handler is a pure function from the
incoming value to what it posts or does. The pending-callback table is a
`map<string, Entry>`. The fetch outcome, `JSON.parse`, the id generator's
random draws and `parseInt` are inputs. `Relay` chains the hops together.
A dispatched request that can be posted, that the broker can start, and
that is not rejected without a reason comes back exactly once, to the right
callbacks of the right page, and the registry loses exactly that request's
entry. The other requests are never answered, or make the page listener
throw; the notes below list them.

Modules: `Wrappers` (Option/Result), `JsValue` (values, truthiness,
property reads, string conversion), `Protocol` (shared tags), `Guid`,
`PageClient`, `ContentBridge`, `Broker`, `Settings`, `Relay`.

Behaviour of the scripts worth noting:
- A callback for an id with no pending entry makes the page listener throw.
  The lookup at `js/inject/index.js:57-59` has no guard
  (`PageClient.Faulted(UnknownRequest)`), and nothing is deleted.
- A request whose copied fields hold a function is registered, but the post
  at `js/inject/index.js:37` throws a DataCloneError. The request never
  leaves the page and its entry is never removed.
- The settings panel has lower bounds only: timeout ≥ 1000, 0 ≤ retries ≤ 10
  and delay ≥ 100. It has no upper bounds on timeout or delay.
- The broker sends any method. A POST whose content type includes neither
  "json" nor the form type gets no body at all. An array content type is
  tested element by element, so only an element that is exactly "json" or
  exactly the form type selects a body. Encoding a form throws when the data
  is a list with an entry that is not a name/value pair; that request is
  never answered.
- A response header named `__proto__` is missing from the `header` object
  the page receives: storing it runs the inherited prototype setter, which
  ignores a string.

## Model

| member | source | states |
|---|---|---|
| Guid.GuidFormat | js/inject/index.js:11-16 | every generated id is 36 characters long, with dashes at 8, 13, 18 and 23, '4' at 14, one of 8/9/a/b at 19, and lower-case hex digits elsewhere |
| Guid.GuidOnto | js/inject/index.js:11-16 | conversely, every string of that format is what some sequence of random draws generates; the draws read back from it regenerate it |
| Guid.FillMatches | js/inject/index.js:12-14 | filling the template's x/y holes left to right gives an instance of the template: an x becomes any hex digit, the y becomes `r & 0x3 \| 0x8` |
| Guid.FillUnfill | js/inject/index.js:12-14 | refilling a template with the values read from one of its instances rebuilds that instance (the y digit is a fixed point of the mask) |
| Guid.TemplateFormat | js/inject/index.js:12 | the instances of the template string are exactly the strings of the id format |
| Guid.TemplateHoles | js/inject/index.js:12-13 | the template has 31 holes, so one id takes 31 random draws |
| PageClient.CrossRequest | js/inject/index.js:19-49 | a falsy argument registers and posts nothing; otherwise the registry gains exactly the key `'cross_request_' + id` with the descriptor's callbacks, all other keys are unchanged, the envelope has the page tag, type `fetch`, the page token as `nodeId` and the same id in `req.requestId`, the posted `req` is the normalised request, and it is posted iff it can be cloned (holds no function) |
| PageClient.PostedExactly | js/inject/index.js:25-48 | the post goes out iff none of the seven copied fields holds a function (the callbacks are not copied); the entry is registered either way |
| PageClient.OutgoingCloneable | js/inject/index.js:38-47 | the outgoing request can be cloned iff every copied field of the descriptor can |
| PageClient.StringIsUrlDescriptor | js/inject/index.js:20-21 | a non-empty string argument `s` behaves exactly like the descriptor `{url: s}` |
| PageClient.OutgoingFields | js/inject/index.js:38-47 | the outgoing `req` has exactly the eight protocol fields; caseId and url are copied and requestId is the drawn id |
| PageClient.PostedRequestDefaults | js/inject/index.js:37-47 | the request `crossRequest` posts copies caseId and url, and keeps each of method, headers, data, taskId and timeout when truthy, replacing it otherwise by GET, {}, "", "" or 30000 |
| PageClient.OutgoingDefaults | js/inject/index.js:42-46 | method, headers, data, taskId and timeout are always present: a truthy value is kept, anything else becomes GET, {}, "", "" or 30000 |
| PageClient.ZeroTimeoutDefaults | js/inject/index.js:46 | a timeout of 0 is falsy and is sent as 30000 |
| PageClient.KeyOfInjective | js/inject/index.js:25 | distinct request ids give distinct registry keys |
| PageClient.AcceptsExactly | js/inject/index.js:52 | the page listener acts exactly on objects tagged `cross_request_content` whose `nodeId` equals the page token, which must be non-empty |
| PageClient.OnMessage | js/inject/index.js:51-65 | filtered or non-callback messages are ignored; an accepted callback throws `UnknownRequest` iff its key is not pending, and throws `MissingResponse` iff the key is pending and `res` is null or undefined; otherwise it is delivered: the success callback runs iff `success` is truthy, with the response, `res.header` and the message, only when it is a function, and the registry loses exactly that key |
| PageClient.DispatchThenDeliver | js/inject/index.js:25-63 | a callback addressed to a dispatched id reaches that request's callbacks and leaves the registry as it was before the dispatch, minus the id's key |
| ContentBridge.FromPage | js/content/index.js:16-22 | a page message reaches the broker, unmodified, iff it is an object tagged `cross_request_page` with the (non-empty) token as `nodeId` and a truthy `req` |
| ContentBridge.FromBroker | js/content/index.js:24-31 | only `fetch_callback` messages are relayed; the relayed message equals the original except that `source` is set to `cross_request_content` |
| ContentBridge.RelayedReachesPage | js/content/index.js:28-30 | a relayed callback passes the page filter iff its `nodeId` is that page's non-empty token |
| ContentBridge.PageRequestsAreForwarded | js/content/index.js:17 | the page client's own envelopes pass the bridge iff the token is non-empty |
| JsValue.Includes | js/service_worker/background.js:13-15 | `includes` exists only on strings and arrays; on an array it is true iff some element is exactly the searched string |
| JsValue.ContainsAt | js/service_worker/background.js:13-15 | a string includes another iff the other occurs in it at some offset |
| Broker.MethodSpec | js/service_worker/background.js:5 | the method is GET when none is given and the upper-cased method when a string is given; any other value throws; the result has no lower-case letters |
| Broker.ContentTypeOrder | js/service_worker/background.js:12 | the content type is `Content-Type`, else `content-type`, else application/json |
| Broker.FetchData | js/service_worker/background.js:3-20 | a started request always has mode no-cors, the request's url, headers defaulting to {}, and the normalised method (the given method upper-cased, GET by default) |
| Broker.OnlyPostHasBody | js/service_worker/background.js:11-18 | only POST carries a body; GET, PUT, PATCH, DELETE and all other methods never do |
| Broker.PostBody | js/service_worker/background.js:11-17 | for POST, a content type that includes "json" passes the data through (even if it also includes the form type), one that includes only the form type gets a URL-encoded form, any other gets no body; a string is searched for the names, an array for an exactly equal element; any other content type throws, and so does a form whose data is a list with an entry that is not a name/value pair |
| Broker.FetchDataFails | js/service_worker/background.js:5-16 | building the call throws exactly for a missing request, a non-string method, a POST whose content type is neither a string nor an array, or a form POST whose list data holds an entry that is not a name/value pair |
| Broker.NonPairFormDataThrows | js/service_worker/background.js:12-16 | a POST with the standard form content type and the data `["a=1"]` throws before any call is made |
| Broker.CollectHeaders | js/service_worker/background.js:36-43 | the header loop yields one string entry per response header name, holding that header's value, except for a header named `__proto__`, whose assignment is ignored |
| Broker.EnvelopeSpec | js/service_worker/background.js:30-46 | the envelope copies status and status text, has one header entry per response header other than `__proto__`, and its body is the parsed JSON when the text parses and the raw text otherwise |
| Broker.OnPortMessage | js/service_worker/background.js:23-58 | on the bridge port, exactly one callback answers every request whose call could be built; it has type `fetch_callback`, copies `nodeId` and `req.requestId`, has success true iff the fetch resolved, and carries the envelope or the rejection reason |
| Settings.Validate | js/popup.js:28-39 | the values are accepted iff the timeout is a number ≥ 1000, the retries a number in [0, 10], and the delay a number ≥ 100; an accepted config is exactly those numbers |
| Settings.ValidateOrder | js/popup.js:28-39 | the checks run in order and the first failure decides which error is shown |
| Settings.ValidateAcceptsInBounds | js/popup.js:28-39 | every configuration within the bounds is accepted unchanged |
| Settings.OnSave | js/popup.js:20-45 | a failed check shows its failure message and sends nothing; otherwise `updateConfig` is sent with a config of exactly timeout, maxRetries and retryDelay |
| Settings.SentConfigInBounds | js/popup.js:21-45 | whatever is sent is within the bounds and is made of exactly the entered numbers |
| Settings.ReplyStatus | js/popup.js:41-54 | the success status is shown iff the response exists and its `success` is truthy; every other outcome shows a text starting with the save-failed prefix |
| Settings.FailedReplyText | js/popup.js:50 | a failed response shows its `error` text, or the unknown-error text when it has none |
| Relay.AnswerShape | js/service_worker/background.js:47-57 | a dispatched request that can be posted and that the broker can start comes back to the page exactly once, tagged by the content script, with the page's token and id, success iff the fetch resolved, and the envelope or the rejection reason |
| Relay.AnswerAddressesEntry | js/inject/index.js:52-57 | that answer passes the page filter and addresses the entry the dispatch registered |
| Relay.RoundTrip | js/inject/index.js:55-63 | end to end, for a request that can be posted and started, the caller's success callback runs iff the fetch resolved and its error callback otherwise, and afterwards the registry has lost exactly the request's entry |
| Relay.ReasonlessRejectionFaults | js/inject/index.js:59-61 | a rejection whose reason is null or undefined makes the page listener throw while reading `res.header` |
| Relay.OtherPagesIgnore | js/inject/index.js:52 | a page with a different token ignores the answer, whatever its registry holds |
| Relay.UncloneableGetsNoAnswer | js/inject/index.js:25-48 | a request whose copied fields hold a function gets no answer, and its entry stays registered |

## Left out

- Transport: `window.postMessage`, `chrome.runtime.connect`/`onConnect`/`sendMessage`, and the JSON serialisation of port messages. The structured clone of the page's post is modelled only by its failure on functions; a message that goes out is passed between the handlers as a value, unchanged. In particular, the model does not show that an `undefined` field is dropped in transit, or that an `Error` rejection reason arrives as `{}`.
- The `fetch` call, `res.text()`, and the promise plumbing. The outcome of the call is an input: `Resolved(response)` or `Rejected(reason)`. A failure while reading the body counts as a rejection.
- `JSON.parse` is an input, a partial function from text to value. `new URLSearchParams(data)` is recorded as `UrlEncodedForm(data)` without encoding it. Its one failure modelled is list data with an entry that is not a two-element list (`Broker.FormEncodable`); a Symbol value, which would also make it throw, is not a modelled value.
- `Math.random`: `guid` takes its 31 draws as integers in [0, 16). `crossRequest` takes the id `guid()` returned as a parameter.
- DOM work: the marker-element lookups, `setAttribute`/`getAttribute` of the token, script injection (`js/content/index.js:35-55`), the popup's element reads, `showStatus` display and its timer, and `console.log`. The page token is a string parameter shared by the page client and the content script.
- The popup's initial configuration load (`js/popup.js:10-17`) is a `getConfig` round trip with no decision logic. `parseInt` is an input: `Some(n)` for the parsed integer, `None` for NaN.
- Numbers are integers. Fractions, NaN and infinities are not modelled.
- A property read (`JsValue.Get`) sees only an object's own fields. The built-in properties of primitives (a string's `length`, say), the index properties and `length` of arrays, and the properties of a function value all read as `undefined`. The built-in methods the scripts call (`includes`, `toUpperCase`) are modelled as separate functions.
- A pending entry's callbacks are captured when the request is dispatched. In the scripts, the wrapper reads `req.success` and `req.error` only when called, so a later change to the descriptor is not modelled. A caller's callback that throws (which would skip the `delete`) is not modelled either.
- The window properties outside the entries `crossRequest` creates are not modelled, including properties with the same prefix that the page sets itself.
- Response headers are a map from name to combined value, as `headers.get` returns it. The order of `entries()` is an input sequence of those names.
- Broker.MethodSpec: upper-casing is modelled for ASCII letters only. JavaScript's `toUpperCase` also maps other letters (for example `ß` to `SS`), and HTTP method names are ASCII.

=== FILE: broker.dfy ===
/** The service worker's request broker (js/service_worker/background.js):
    `fetchData` turns a relayed request into a `fetch` call, and the port's
    message listener answers every request it could start with exactly one
    correlated `fetch_callback`. The network call itself, `res.text()`,
    `JSON.parse` and `URLSearchParams` are outside the model: the outcome of
    the call and the parser are inputs. */
module Broker {
  import opened Wrappers
  import opened JsValue
  import opened Protocol

  const DefaultContentType := "application/json"
  const NoCors := "no-cors"

  /** The request body: none, `data` passed through as is, or `data` encoded
      by `new URLSearchParams(data)`. */
  datatype Body = NoBody | Passthrough(data: Value) | UrlEncodedForm(data: Value)

  /** The `reqConfig` handed to `fetch`; `verb` is its `method` property. */
  datatype RequestInit = RequestInit(verb: string, headers: Value, mode: string, body: Body)

  /** One `fetch(url, init)` call. */
  datatype FetchCall = FetchCall(url: Value, init: RequestInit)

  /** The TypeErrors `fetchData` can throw before any network call: reading
      `method` of a missing request, upper-casing a method that is not a
      string, calling `includes` on a content type that has no such method
      (neither a string nor an array), or URL-encoding data that is a list
      with an entry other than a name/value pair. */
  datatype TypeError = MissingRequest | MethodNotString | ContentTypeWithoutIncludes | FormDataNotPairs

  const FormType := "x-www-form-urlencoded"

  /** Data `new URLSearchParams` accepts. A list (here an array) must
      consist of two-element lists; any other value is read as a string or
      as a record of name/value properties, which cannot fail for the values
      modelled here. */
  predicate FormEncodable(data: Value) {
    data.Arr? ==> forall i :: 0 <= i < |data.elems| ==> data.elems[i].Arr? && |data.elems[i].elems| == 2
  }

  /** A content type that selects the URL-encoded form: it includes the form
      type but not "json". */
  predicate SelectsForm(ct: Value) {
    Includes(ct, "json") == Some(false) && Includes(ct, FormType) == Some(true)
  }

  /** The effective method: the request's method when it is truthy, GET
      otherwise, upper-cased; upper-casing anything but a string throws. */
  function Method(req: Value): (r: Result<string, TypeError>)
    requires !Nullish(req)
  {
    var m := Or(Get(req, "method"), Str("GET"));
    if m.Str? then Success(ToUpper(m.s)) else Failure(MethodNotString)
  }

  /** The effective method is "GET" when none is given, the upper-cased
      method when a string is given, and a TypeError otherwise. */
  lemma MethodSpec(req: Value)
    requires !Nullish(req)
    ensures var m := Get(req, "method");
      && (!Truthy(m) ==> Method(req) == Success("GET"))
      && (Truthy(m) && m.Str? ==> Method(req) == Success(ToUpper(m.s)))
      && (Method(req).Failure? <==> Truthy(m) && !m.Str?)
      && (Method(req).Success? ==> NoLowerCase(Method(req).value))
  {
    ToUpperSpec("GET");
    if Get(req, "method").Str? {
      ToUpperSpec(Get(req, "method").s);
    }
  }

  /** The content type a POST is encoded by: the capitalised header, else
      the lower-case one, else JSON, each tested for truthiness. */
  function ContentType(headers: Value): Value
    requires !Nullish(headers)
  {
    Or(Or(Get(headers, "Content-Type"), Get(headers, "content-type")), Str(DefaultContentType))
  }

  /** The content type is the first truthy one of `Content-Type` and
      `content-type`, else JSON. */
  lemma ContentTypeOrder(headers: Value)
    requires !Nullish(headers)
    ensures var upper := Get(headers, "Content-Type");
      var lower := Get(headers, "content-type");
      && (Truthy(upper) ==> ContentType(headers) == upper)
      && (!Truthy(upper) && Truthy(lower) ==> ContentType(headers) == lower)
      && (!Truthy(upper) && !Truthy(lower) ==> ContentType(headers) == Str(DefaultContentType))
      && Truthy(ContentType(headers))
  {
  }

  /** The body for a given method (lines 11-18): only POST sends one; a
      content type that includes "json" passes `data` through, one that
      includes the form type encodes it (which throws for data the encoder
      rejects), any other leaves the body unset.
      For a string content type "includes" is a substring test, for an array
      it is a test for that exact element. */
  function BodyFor(verb: string, headers: Value, data: Value): Result<Body, TypeError>
    requires !Nullish(headers)
  {
    if verb != "POST" then Success(NoBody)
    else
      var ct := ContentType(headers);
      var json := Includes(ct, "json");
      if json.None? then Failure(ContentTypeWithoutIncludes)
      else if json.value then Success(Passthrough(data))
      else if Includes(ct, FormType).value then
        if FormEncodable(data) then Success(UrlEncodedForm(data)) else Failure(FormDataNotPairs)
      else Success(NoBody)
  }

  /** `fetchData(req)` up to the `fetch` call. */
  function FetchData(req: Value): (r: Result<FetchCall, TypeError>)
    ensures r.Success? ==> !Nullish(req)
    ensures r.Success? ==> r.value.init.mode == NoCors
    ensures r.Success? ==> r.value.init.headers == Or(Get(req, "headers"), Obj(map[]))
    ensures r.Success? ==> r.value.url == Get(req, "url")
    ensures r.Success? ==> Method(req).Success? && r.value.init.verb == Method(req).value
  {
    if Nullish(req) then Failure(MissingRequest)
    else
      var verb :- Method(req);
      var data := Or(Get(req, "data"), Str(""));
      var headers := Or(Get(req, "headers"), Obj(map[]));
      var body :- BodyFor(verb, headers, data);
      Success(FetchCall(Get(req, "url"), RequestInit(verb, headers, NoCors, body)))
  }

  /** Only POST ever carries a body: GET, PUT, PATCH, DELETE and every other
      method are sent without one, whatever the content type. */
  lemma OnlyPostHasBody(req: Value)
    requires FetchData(req).Success?
    ensures FetchData(req).value.init.body != NoBody ==> FetchData(req).value.init.verb == "POST"
    ensures FetchData(req).value.init.verb != "POST" ==> FetchData(req).value.init.body == NoBody
  {
  }

  /** When `fetchData` throws, and which body a POST gets: a JSON content type
      wins over a form one, and the data sent is `req.data` or "". A string
      content type is searched for the two names; an array content type
      selects a body only through an element that is exactly "json" or
      exactly the form type. Encoding a form throws for list data whose
      entries are not all name/value pairs. */
  lemma PostBody(req: Value)
    requires !Nullish(req) && Method(req) == Success("POST")
    ensures var ct := ContentType(Or(Get(req, "headers"), Obj(map[])));
      var data := Or(Get(req, "data"), Str(""));
      && (FetchData(req).Failure? <==> (!ct.Str? && !ct.Arr?) || (SelectsForm(ct) && !FormEncodable(data)))
      && (ct.Str? && Contains(ct.s, "json") ==> FetchData(req).value.init.body == Passthrough(data))
      && (ct.Str? && !Contains(ct.s, "json") && Contains(ct.s, FormType) && FormEncodable(data) ==>
            FetchData(req).value.init.body == UrlEncodedForm(data))
      && (ct.Str? && !Contains(ct.s, "json") && !Contains(ct.s, FormType) ==>
            FetchData(req).value.init.body == NoBody)
      && (ct.Arr? && Str("json") in ct.elems ==> FetchData(req).value.init.body == Passthrough(data))
      && (ct.Arr? && Str("json") !in ct.elems && Str(FormType) in ct.elems && FormEncodable(data) ==>
            FetchData(req).value.init.body == UrlEncodedForm(data))
      && (ct.Arr? && Str("json") !in ct.elems && Str(FormType) !in ct.elems ==>
            FetchData(req).value.init.body == NoBody)
  {
  }

  /** `fetchData` throws exactly for a missing request, a non-string method,
      a POST whose content type is neither a string nor an array, or a POST
      of a URL-encoded form whose list data holds an entry that is not a
      name/value pair. */
  lemma FetchDataFails(req: Value)
    ensures FetchData(req).Failure? <==>
      || Nullish(req)
      || Method(req).Failure?
      || (Method(req) == Success("POST") &&
          var ct := ContentType(Or(Get(req, "headers"), Obj(map[])));
          ((!ct.Str? && !ct.Arr?) || (SelectsForm(ct) && !FormEncodable(Or(Get(req, "data"), Str(""))))))
  {
  }

  /** The standard form content type selects the URL-encoded form. */
  lemma FormContentTypeSelectsForm()
    ensures SelectsForm(Str("application/" + FormType))
  {
    var s := "application/" + FormType;
    forall i | 0 <= i <= |s| - 4
      ensures !OccursAt(s, "json", i)
    {
      assert s[i..i + 4][0] == s[i] != 'j';
    }
    ContainsAt(s, "json");
    assert OccursAt(s, FormType, 12);
    ContainsAt(s, FormType);
  }

  /** A form POST whose data is a list of plain strings throws before any
      call is made, so the port listener never answers it. */
  lemma NonPairFormDataThrows()
    ensures var req := Obj(map[
        "method" := Str("POST"),
        "headers" := Obj(map["Content-Type" := Str("application/" + FormType)]),
        "data" := Arr([Str("a=1")])]);
      FetchData(req) == Failure(FormDataNotPairs)
  {
    var req := Obj(map[
        "method" := Str("POST"),
        "headers" := Obj(map["Content-Type" := Str("application/" + FormType)]),
        "data" := Arr([Str("a=1")])]);
    ToUpperSpec("POST");
    assert Method(req) == Success("POST");
    var headers := Or(Get(req, "headers"), Obj(map[]));
    assert ContentType(headers) == Str("application/" + FormType);
    FormContentTypeSelectsForm();
    var data := Or(Get(req, "data"), Str(""));
    assert data == Arr([Str("a=1")]);
    assert !data.elems[0].Arr?;
    assert BodyFor("POST", headers, Or(Get(req, "data"), Str(""))) == Failure(FormDataNotPairs);
  }

  /** A response as `fetch` resolves it: status, status text, the full body
      text, and the header list as name/value pairs. */
  datatype Response = Response(status: int, statusText: string, text: string, headers: map<string, string>)

  /** The settled `fetch` promise, including a failure while reading the body. */
  datatype FetchOutcome = Resolved(response: Response) | Rejected(reason: Value)

  /** The one property name whose assignment on a plain object does not
      create a property: it runs the inherited prototype setter, which ignores
      a string value. */
  const ProtoKey := "__proto__"

  /** The `resHeader` object: one string property per response header,
      except a header named `__proto__`, whose assignment is ignored. */
  function HeaderObject(headers: map<string, string>): map<string, Value> {
    map k | k in headers && k != ProtoKey :: Str(headers[k])
  }

  /** The header loop (lines 36-43): walks the names `entries()` yields and
      stores each name's combined value under it; the assignment for the
      name `__proto__` has no effect. */
  method CollectHeaders(names: seq<string>, headers: map<string, string>) returns (resHeader: map<string, Value>)
    requires forall i :: 0 <= i < |names| ==> names[i] in headers
    requires forall k :: k in headers ==> k in names
    ensures resHeader.Keys == headers.Keys - {ProtoKey}
    ensures forall k :: k in resHeader ==> resHeader[k] == Str(headers[k])
    ensures resHeader == HeaderObject(headers)
  {
    resHeader := map[];
    var i := 0;
    while i < |names|
      invariant 0 <= i <= |names|
      invariant resHeader.Keys == set j | 0 <= j < i && names[j] != ProtoKey :: names[j]
      invariant forall k :: k in resHeader ==> k in headers && resHeader[k] == Str(headers[k])
    {
      if names[i] != ProtoKey {
        resHeader := resHeader[names[i] := Str(headers[names[i]])];
      }
      i := i + 1;
    }
    assert forall k :: k in headers && k != ProtoKey ==> k in resHeader by {
      forall k | k in headers && k != ProtoKey ensures k in resHeader {
        var j :| 0 <= j < |names| && names[j] == k;
      }
    }
  }

  /** The response body: the parsed JSON when the text parses, else the text. */
  function ParsedBody(text: string, parse: string -> Option<Value>): Value {
    match parse(text)
    case Some(v) => v
    case None => Str(text)
  }

  /** The `resData` envelope. */
  function ResponseEnvelope(response: Response, parse: string -> Option<Value>): Value {
    Obj(map[
      "header" := Obj(HeaderObject(response.headers)),
      "status" := Num(response.status),
      "statusText" := Str(response.statusText),
      "body" := ParsedBody(response.text, parse)
    ])
  }

  /** The envelope copies status and status text, has one header entry per
      response header other than `__proto__`, and its body is the parsed text when it parses and
      the raw text otherwise. */
  lemma EnvelopeSpec(response: Response, parse: string -> Option<Value>)
    ensures var e := ResponseEnvelope(response, parse);
      && e.Obj? && e.fields.Keys == {"header", "status", "statusText", "body"}
      && Get(e, "status") == Num(response.status)
      && Get(e, "statusText") == Str(response.statusText)
      && Get(e, "header").Obj?
      && Get(e, "header").fields.Keys == response.headers.Keys - {ProtoKey}
      && (forall k :: k in response.headers && k != ProtoKey ==> Get(Get(e, "header"), k) == Str(response.headers[k]))
      && (parse(response.text).Some? ==> Get(e, "body") == parse(response.text).value)
      && (parse(response.text).None? ==> Get(e, "body") == Str(response.text))
  {
  }

  /** The callback message answering request `msg`. */
  function Callback(msg: Value, outcome: FetchOutcome, parse: string -> Option<Value>): Value
    requires !Nullish(msg) && !Nullish(Get(msg, "req"))
  {
    Obj(map[
      "type" := Str(CallbackType),
      "nodeId" := Get(msg, "nodeId"),
      "requestId" := Get(Get(msg, "req"), "requestId"),
      "success" := Bool(outcome.Resolved?),
      "res" := match outcome
               case Resolved(response) => ResponseEnvelope(response, parse)
               case Rejected(reason) => reason
    ])
  }

  /** One message on a port named `portName`. Ports with another name get no
      listener; a message whose `fetchData` throws gets no answer; every other
      message is answered by exactly one callback. */
  function OnPortMessage(portName: string, msg: Value, outcome: FetchOutcome, parse: string -> Option<Value>): (r: Option<Value>)
    ensures r.Some? <==> portName == PortName && !Nullish(msg) && FetchData(Get(msg, "req")).Success?
    ensures r.Some? ==>
      var req := Get(msg, "req");
      && !Nullish(req)
      && !Nullish(r.value)
      && Get(r.value, "type") == Str(CallbackType)
      && Get(r.value, "nodeId") == Get(msg, "nodeId")
      && Get(r.value, "requestId") == Get(req, "requestId")
      && Get(r.value, "success") == Bool(outcome.Resolved?)
      && (outcome.Resolved? ==> Get(r.value, "res") == ResponseEnvelope(outcome.response, parse))
      && (outcome.Rejected? ==> Get(r.value, "res") == outcome.reason)
  {
    if portName != PortName || Nullish(msg) then None
    else match FetchData(Get(msg, "req"))
      case Failure(_) => None
      case Success(_) => Some(Callback(msg, outcome, parse))
  }
}

=== FILE: content_bridge.dfy ===
/** The content script's relay (js/content/index.js:16-31): requests posted
    by this page's client go to the broker unchanged, and the broker's
    callbacks come back to the page re-tagged as coming from the content
    script. The token is the random id the script put on the marker element
    as `data-nodeId`. */
module ContentBridge {
  import opened Wrappers
  import opened JsValue
  import opened Protocol
  import PageClient

  /** The guard of the window `message` listener (line 17), as written: what
      it lets through to the broker. */
  predicate ForwardsToBroker(data: Value, token: string) {
    !(!Truthy(data) || TypeOf(data) == "string"
      || Get(data, "source") != Str(PageSource)
      || !Truthy(Get(data, "nodeId")) || !Truthy(Get(data, "req"))
      || Get(data, "nodeId") != Str(token))
  }

  /** A page message reaches the broker, passed through unmodified, exactly
      when it is an object tagged by the page client, carrying this page's
      (non-empty) token and a request. */
  function FromPage(data: Value, token: string): (r: Option<Value>)
    ensures r.Some? ==> r.value == data
    ensures r.Some? <==>
      && data.Obj?
      && Get(data, "source") == Str(PageSource)
      && token != ""
      && Get(data, "nodeId") == Str(token)
      && Truthy(Get(data, "req"))
  {
    if ForwardsToBroker(data, token) then Some(data) else None
  }

  /** The port `onMessage` listener (lines 24-31): only callbacks are relayed,
      with `source` set to the content script's tag. A `null` or `undefined`
      message throws on the `type` read; either way nothing is relayed. */
  function FromBroker(msg: Value): (r: Option<Value>)
    ensures r.Some? <==> !Nullish(msg) && Get(msg, "type") == Str(CallbackType)
    ensures r.Some? ==>
      && msg.Obj? && r.value.Obj?
      && r.value.fields.Keys == msg.fields.Keys + {"source"}
      && Get(r.value, "source") == Str(ContentSource)
      && forall k :: k != "source" ==> Get(r.value, k) == Get(msg, k)
  {
    if Nullish(msg) || Get(msg, "type") != Str(CallbackType) then None
    else Some(Obj(msg.fields["source" := Str(ContentSource)]))
  }

  /** A relayed callback passes the page client's filter exactly when its
      `nodeId` is that page's token: callbacks meant for another page on the
      same broker are dropped. */
  lemma RelayedReachesPage(msg: Value, token: string)
    requires FromBroker(msg).Some?
    ensures PageClient.Accepts(FromBroker(msg).value, token) <==>
      token != "" && Get(msg, "nodeId") == Str(token)
  {
    var out := FromBroker(msg).value;
    PageClient.AcceptsExactly(out, token);
    assert Get(out, "nodeId") == Get(msg, "nodeId");
  }

  /** The page client's own envelopes pass the bridge exactly when the page's
      token is non-empty. */
  lemma PageRequestsAreForwarded(req: Value, token: string, requestId: string, pending: PageClient.Registry)
    requires Truthy(req)
    ensures var m := PageClient.CrossRequest(req, token, requestId, pending).value.message;
      FromPage(m, token) == (if token != "" then Some(m) else None)
  {
    var d := PageClient.Descriptor(req);
    PageClient.OutgoingFields(d, requestId);
  }
}

=== FILE: guid.dfy ===
/** The page client's request-id generator (js/inject/index.js:11-16): every
    `x` of a fixed template is replaced by a random hex digit and the single
    `y` by a digit whose two high bits are forced to `10`. The random draws,
    each an integer from 0 to 15, are supplied as a sequence. */
module Guid {

  const Template := "xxxxxxxx-xxxx-4xxx-yxxx-xxxxxxxxxxxx"

  /** Lower-case hexadecimal digits, as base-16 conversion writes them. */
  const HexDigits := "0123456789abcdef"

  /** The digits a `y` position can take. */
  const VariantDigits := "89ab"

  predicate IsHole(c: char) {
    c == 'x' || c == 'y'
  }

  /** Number of `x`/`y` positions in a template. */
  function Holes(t: string): nat {
    if t == [] then 0 else (if IsHole(t[0]) then 1 else 0) + Holes(t[1..])
  }

  /** The template character at each position 0 <= i < 36. */
  function TemplateChar(i: int): char {
    if i == 8 || i == 13 || i == 18 || i == 23 then '-'
    else if i == 14 then '4'
    else if i == 19 then 'y'
    else 'x'
  }

  lemma TemplateChars()
    ensures |Template| == 36
    ensures forall i :: 0 <= i < 36 ==> Template[i] == TemplateChar(i)
  {
  }

  /** Number of non-hole template positions at or after position k. */
  function FixedFrom(k: int): int {
    (if k <= 8 then 1 else 0) + (if k <= 13 then 1 else 0) + (if k <= 14 then 1 else 0)
    + (if k <= 18 then 1 else 0) + (if k <= 23 then 1 else 0)
  }

  lemma {:induction false} HolesFrom(t: string, k: nat)
    requires |t| == 36 && forall i :: 0 <= i < 36 ==> t[i] == TemplateChar(i)
    requires k <= 36
    ensures Holes(t[k..]) == 36 - k - FixedFrom(k)
    decreases 36 - k
  {
    if k < 36 {
      HolesFrom(t, k + 1);
      HolesStep(t, k);
    }
  }

  lemma HolesStep(t: string, k: nat)
    requires k < |t|
    ensures Holes(t[k..]) == (if IsHole(t[k]) then 1 else 0) + Holes(t[k + 1..])
  {
    assert t[k..][1..] == t[k + 1..];
  }

  /** `guid()` draws 31 random numbers: one per hole of the template. */
  const Draws := 31

  lemma TemplateHoles()
    ensures Holes(Template) == Draws
  {
    TemplateChars();
    HolesFrom(Template, 0);
    assert Template[0..] == Template;
  }

  /** One random draw per hole, each an integer in [0, 16). */
  predicate ValidNibbles(rs: seq<int>) {
    |rs| == Draws && forall i :: 0 <= i < |rs| ==> 0 <= rs[i] < 16
  }

  /** The value written at a `y` position: the draw's two low bits with the
      high bits set to binary 10. */
  function Variant(r: int): int
    requires 0 <= r < 16
  {
    ((r as bv8 & 0x3) | 0x8) as int
  }

  /** The digit written for template character `t` and draw `r`. */
  function HoleDigit(t: char, r: int): char
    requires 0 <= r < 16
  {
    if t == 'x' then HexDigits[r] else HexDigits[Variant(r)]
  }

  /** Every hole of template `t` replaced, left to right, by the digit for the
      next draw; other characters are kept. */
  function Fill(t: string, rs: seq<int>): string
    requires |rs| == Holes(t)
    requires forall i :: 0 <= i < |rs| ==> 0 <= rs[i] < 16
    decreases |t|
  {
    if t == [] then []
    else if IsHole(t[0]) then [HoleDigit(t[0], rs[0])] + Fill(t[1..], rs[1..])
    else [t[0]] + Fill(t[1..], rs)
  }

  /** The id the generator returns for the draws `rs`. */
  function Guid(rs: seq<int>): string
    requires ValidNibbles(rs)
  {
    TemplateHoles();
    Fill(Template, rs)
  }

  /** Character `c` may stand at a position whose template character is `t`. */
  predicate Fits(t: char, c: char) {
    if t == 'x' then c in HexDigits
    else if t == 'y' then c in VariantDigits
    else c == t
  }

  /** `s` is an instance of template `t`. */
  predicate Matches(t: string, s: string) {
    |s| == |t| && forall i :: 0 <= i < |t| ==> Fits(t[i], s[i])
  }

  /** The textual format of a request id, stated position by position. */
  predicate IsGuid(s: string) {
    && |s| == 36
    && s[8] == '-' && s[13] == '-' && s[18] == '-' && s[23] == '-'
    && s[14] == '4'
    && s[19] in VariantDigits
    && forall i :: 0 <= i < 36 && i != 8 && i != 13 && i != 18 && i != 23 ==> s[i] in HexDigits
  }

  /** Value of a hex digit: the inverse of indexing `HexDigits`. */
  function HexValue(c: char): (v: int)
    requires c in HexDigits
    ensures 0 <= v < 16 && HexDigits[v] == c
  {
    if '0' <= c <= '9' then c as int - '0' as int else c as int - 'a' as int + 10
  }

  /** The draws recovered from an instance of a template: the value of the
      digit at every hole. */
  function Unfill(t: string, s: string): (rs: seq<int>)
    requires Matches(t, s)
    ensures |rs| == Holes(t)
    ensures forall i :: 0 <= i < |rs| ==> 0 <= rs[i] < 16
    decreases |t|
  {
    if t == [] then []
    else
      MatchesTail(t, s);
      if IsHole(t[0]) then
        assert Fits(t[0], s[0]);
        [HexValue(s[0])] + Unfill(t[1..], s[1..])
      else Unfill(t[1..], s[1..])
  }

  /** Every filled template is an instance of it. */
  lemma {:induction false} FillMatches(t: string, rs: seq<int>)
    requires |rs| == Holes(t)
    requires forall i :: 0 <= i < |rs| ==> 0 <= rs[i] < 16
    ensures Matches(t, Fill(t, rs))
    decreases |t|
  {
    if t != [] {
      var rest := if IsHole(t[0]) then rs[1..] else rs;
      FillMatches(t[1..], rest);
      var s := Fill(t, rs);
      forall i | 0 <= i < |t| ensures Fits(t[i], s[i]) {
        if i == 0 {
          if IsHole(t[0]) {
            var r := rs[0];
            if t[0] == 'y' {
              assert 8 <= Variant(r) < 12 && VariantDigits == HexDigits[8..12];
            }
          }
        } else {
          assert s[i] == Fill(t[1..], rest)[i - 1];
        }
      }
    }
  }

  lemma MatchesTail(t: string, s: string)
    requires Matches(t, s) && t != []
    ensures Matches(t[1..], s[1..])
  {
    forall i | 0 <= i < |t| - 1 ensures Fits(t[1..][i], s[1..][i]) {
      assert Fits(t[i + 1], s[i + 1]);
    }
  }

  /** A digit that may stand at a `y` position is its own variant. */
  lemma VariantFixed(c: char)
    requires c in VariantDigits
    ensures c in HexDigits && Variant(HexValue(c)) == HexValue(c)
  {
    assert c == '8' || c == '9' || c == 'a' || c == 'b';
  }

  /** Filling a template with the draws read back from one of its instances
      rebuilds that instance. */
  lemma {:induction false} FillUnfill(t: string, s: string)
    requires Matches(t, s)
    ensures Fill(t, Unfill(t, s)) == s
    decreases |t|
  {
    if t != [] {
      MatchesTail(t, s);
      FillUnfill(t[1..], s[1..]);
      assert Fits(t[0], s[0]);
      if t[0] == 'y' {
        VariantFixed(s[0]);
      }
    }
  }

  /** The instances of the template are exactly the strings with the
      request-id format. */
  lemma TemplateFormat(s: string)
    ensures Matches(Template, s) <==> IsGuid(s)
  {
    TemplateChars();
    if |s| == 36 {
      if Matches(Template, s) {
        assert Fits(Template[8], s[8]) && Fits(Template[13], s[13]);
        assert Fits(Template[18], s[18]) && Fits(Template[23], s[23]);
        assert Fits(Template[14], s[14]) && Fits(Template[19], s[19]);
        forall i | 0 <= i < 36 && i != 8 && i != 13 && i != 18 && i != 23 ensures s[i] in HexDigits {
          assert Fits(Template[i], s[i]);
        }
      }
      if IsGuid(s) {
        forall i | 0 <= i < 36 ensures Fits(Template[i], s[i]) {
        }
      }
    }
  }

  /** Every generated id has the request-id format: 36 characters, dashes at
      8, 13, 18 and 23, a '4' at 14, one of 8, 9, a, b at 19 and lower-case
      hex digits elsewhere. */
  lemma GuidFormat(rs: seq<int>)
    requires ValidNibbles(rs)
    ensures IsGuid(Guid(rs))
  {
    TemplateHoles();
    FillMatches(Template, rs);
    TemplateFormat(Guid(rs));
  }

  /** Conversely every string of the request-id format is generated by some
      draws, namely the ones read back from it. */
  lemma GuidOnto(s: string)
    requires IsGuid(s)
    ensures ValidNibbles(Unfill(Template, s))
    ensures Guid(Unfill(Template, s)) == s
  {
    TemplateFormat(s);
    TemplateHoles();
    FillUnfill(Template, s);
  }
}

=== FILE: js_value.dfy ===
/** JavaScript values as the relay's scripts handle them: the messages posted
    between the page, the content script and the service worker, and the
    fields the scripts read off those messages. */
module JsValue {
  import opened Wrappers

  /** A JavaScript value. Numbers are integers (fractions, NaN and the
      infinities are not modelled); an object is the record of its own
      properties; an array is the list of its elements; a function is
      identified by its source text, which is what string conversion yields
      for it. */
  datatype Value =
    | Undefined
    | Null
    | Bool(b: bool)
    | Num(n: int)
    | Str(s: string)
    | Obj(fields: map<string, Value>)
    | Arr(elems: seq<Value>)
    | Func(source: string)

  /** `null` and `undefined`: reading a property of either throws a TypeError. */
  predicate Nullish(v: Value) {
    v.Undefined? || v.Null?
  }

  /** ToBoolean: what `!v`, `if (v)` and `v || w` test. */
  predicate Truthy(v: Value) {
    match v
    case Undefined => false
    case Null => false
    case Bool(b) => b
    case Num(n) => n != 0
    case Str(s) => s != ""
    case Obj(_) => true
    case Arr(_) => true
    case Func(_) => true
  }

  /** The `typeof` operator. */
  function TypeOf(v: Value): string {
    match v
    case Undefined => "undefined"
    case Null => "object"
    case Bool(_) => "boolean"
    case Num(_) => "number"
    case Str(_) => "string"
    case Obj(_) => "object"
    case Arr(_) => "object"
    case Func(_) => "function"
  }

  /** `a || b`: the left operand when it is truthy, otherwise the right one. */
  function Or(a: Value, b: Value): Value {
    if Truthy(a) then a else b
  }

  /** The property read `v[k]` on a value that is not nullish. Only objects
      carry properties here; the built-in properties of primitives (such as a
      string's `length`) and the index properties and `length` of arrays are
      not modelled and read as `undefined`. */
  function Get(v: Value, k: string): Value
    requires !Nullish(v)
  {
    if v.Obj? && k in v.fields then v.fields[k] else Undefined
  }

  /** The decimal digit for 0 <= d < 10. */
  function DigitChar(d: int): char
    requires 0 <= d < 10
  {
    "0123456789"[d]
  }

  /** The decimal numeral of a natural number, without leading zeros. */
  function NatToDecimal(n: nat): string
    decreases n
  {
    if n < 10 then [DigitChar(n)] else NatToDecimal(n / 10) + [DigitChar(n % 10)]
  }

  /** String conversion, as `'text' + v` performs it. An array converts to
      its elements joined by commas, with `null` and `undefined` elements
      written as empty strings. */
  function ToStr(v: Value): string
    decreases v, 1, 0
  {
    match v
    case Undefined => "undefined"
    case Null => "null"
    case Bool(b) => if b then "true" else "false"
    case Num(n) => if n < 0 then "-" + NatToDecimal(-n) else NatToDecimal(n)
    case Str(s) => s
    case Obj(_) => "[object Object]"
    case Arr(es) => JoinPrefix(v, |es|)
    case Func(src) => src
  }

  /** The first `n` elements of array `v` converted and joined by commas. */
  function JoinPrefix(v: Value, n: nat): string
    requires v.Arr? && n <= |v.elems|
    decreases v, 0, n
  {
    if n == 0 then ""
    else
      var e := v.elems[n - 1];
      var last := if Nullish(e) then "" else ToStr(e);
      if n == 1 then last else JoinPrefix(v, n - 1) + "," + last
  }

  /** `s.includes(sub)` on a string: `sub` occurs in `s` at some offset. */
  predicate Contains(s: string, sub: string)
    decreases |s|
  {
    sub <= s || (|s| > 0 && Contains(s[1..], sub))
  }

  /** `sub` occurs in `s` starting at offset `i`. */
  predicate OccursAt(s: string, sub: string, i: int) {
    0 <= i <= |s| - |sub| && s[i..i + |sub|] == sub
  }

  /** `sub` occurs in `s` exactly when it occurs at some offset. */
  lemma {:induction false} ContainsAt(s: string, sub: string)
    ensures Contains(s, sub) <==> exists i :: OccursAt(s, sub, i)
    decreases |s|
  {
    if sub <= s {
      assert OccursAt(s, sub, 0);
    } else if |s| > 0 {
      ContainsAt(s[1..], sub);
      forall i | OccursAt(s, sub, i)
        ensures OccursAt(s[1..], sub, i - 1)
      {
        assert i != 0 by { assert s[..|sub|] == s[0..|sub|]; }
        assert s[1..][i - 1..i - 1 + |sub|] == s[i..i + |sub|];
      }
      forall j | OccursAt(s[1..], sub, j)
        ensures OccursAt(s, sub, j + 1)
      {
        assert s[1..][j..j + |sub|] == s[j + 1..j + 1 + |sub|];
      }
    }
  }

  /** Calling `includes(x)` on `v` with a string `x`: a string tests for the
      substring, an array for an element that is exactly the string `x`.
      Every other value has no `includes` method, so the call throws a
      TypeError (`None`). */
  function Includes(v: Value, x: string): (r: Option<bool>)
    ensures r.Some? <==> v.Str? || v.Arr?
    ensures v.Str? ==> r == Some(Contains(v.s, x))
    ensures v.Arr? ==> (r == Some(true) <==> exists i :: 0 <= i < |v.elems| && v.elems[i] == Str(x))
  {
    match v
    case Str(s) => Some(Contains(s, x))
    case Arr(es) => Some(Str(x) in es)
    case _ => None
  }

  /** A value the structured clone of `postMessage` can copy: no function
      occurs in it, at any depth. Cloning anything else throws a
      DataCloneError. */
  predicate Cloneable(v: Value) {
    match v
    case Func(_) => false
    case Obj(fs) => forall k :: k in fs ==> Cloneable(fs[k])
    case Arr(es) => forall i :: 0 <= i < |es| ==> Cloneable(es[i])
    case _ => true
  }

  /** `c.toUpperCase()` restricted to ASCII: a-z become A-Z, every other
      character is kept. */
  function UpperChar(c: char): char {
    if 'a' <= c <= 'z' then (c as int - 'a' as int + 'A' as int) as char else c
  }

  /** `s.toUpperCase()` for ASCII text. */
  function ToUpper(s: string): string {
    seq(|s|, i requires 0 <= i < |s| => UpperChar(s[i]))
  }

  /** No ASCII lower-case letter occurs in `s`. */
  predicate NoLowerCase(s: string) {
    forall i :: 0 <= i < |s| ==> !('a' <= s[i] <= 'z')
  }

  /** Upper-casing leaves no lower-case letter, keeps the length, changes
      nothing already upper-case, and is idempotent. */
  lemma ToUpperSpec(s: string)
    ensures |ToUpper(s)| == |s|
    ensures NoLowerCase(ToUpper(s))
    ensures NoLowerCase(s) ==> ToUpper(s) == s
    ensures ToUpper(ToUpper(s)) == ToUpper(s)
  {
  }
}

=== FILE: page_client.dfy ===
/** The page-side client (js/inject/index.js): `crossRequest` normalises a
    request descriptor, registers its callbacks under a fresh request id and
    posts the request envelope; the `message` listener filters incoming
    envelopes and hands a correlated callback to the registered callbacks.
    The page token is the `data-nodeId` attribute the content script put on
    the marker element. */
module PageClient {
  import opened Wrappers
  import opened JsValue
  import opened Protocol

  /** Pending entries live on the window under this prefix plus the id. */
  const KeyPrefix := "cross_request_"

  /** The callbacks of one pending request: the `success` and `error`
      properties of the caller's descriptor, invoked only when they are
      functions. */
  datatype Entry = Entry(success: Value, error: Value)

  /** The pending-request table, keyed by window property name. */
  type Registry = map<string, Entry>

  function KeyOf(requestId: string): string {
    KeyPrefix + requestId
  }

  /** Distinct request ids have distinct registry keys. */
  lemma KeyOfInjective(a: string, b: string)
    ensures KeyOf(a) == KeyOf(b) <==> a == b
  {
    if KeyOf(a) == KeyOf(b) {
      assert a == KeyOf(a)[|KeyPrefix|..];
      assert b == KeyOf(b)[|KeyPrefix|..];
    }
  }

  /** Fields of the outgoing request that fall back to a default when absent
      or falsy, with their defaults. */
  const Defaults: map<string, Value> := map[
    "method" := Str("GET"),
    "headers" := Obj(map[]),
    "data" := Str(""),
    "taskId" := Str(""),
    "timeout" := Num(30000)
  ]

  /** A bare URL string stands for the descriptor `{url: s}`. */
  function Descriptor(req: Value): (d: Value)
    requires Truthy(req)
    ensures d.Obj? || d.Arr? || d.Bool? || d.Num? || d.Func?
  {
    if req.Str? then Obj(map["url" := req]) else req
  }

  /** The `req` object of the outgoing envelope. */
  function Outgoing(d: Value, requestId: string): (o: Value)
    requires !Nullish(d)
    ensures o.Obj? && Get(o, "requestId") == Str(requestId)
  {
    Obj(map[
      "caseId" := Get(d, "caseId"),
      "requestId" := Str(requestId),
      "url" := Get(d, "url"),
      "method" := Or(Get(d, "method"), Defaults["method"]),
      "headers" := Or(Get(d, "headers"), Defaults["headers"]),
      "data" := Or(Get(d, "data"), Defaults["data"]),
      "taskId" := Or(Get(d, "taskId"), Defaults["taskId"]),
      "timeout" := Or(Get(d, "timeout"), Defaults["timeout"])
    ])
  }

  /** The envelope posted to the window for the content script. */
  function RequestEnvelope(token: string, req: Value): (m: Value)
    ensures m.Obj? && Get(m, "req") == req
  {
    Obj(map[
      "source" := Str(PageSource),
      "nodeId" := Str(token),
      "type" := Str(FetchType),
      "req" := req
    ])
  }

  /** The fields of the descriptor copied into the outgoing request. */
  const CopiedFields: set<string> := {"caseId", "url", "method", "headers", "data", "taskId", "timeout"}

  /** What one `crossRequest` call does: the id it drew, the registry after
      it, the envelope it posts, and whether the post went out. The post
      throws a DataCloneError, after the entry is registered, when the
      envelope holds a function. */
  datatype Dispatch = Dispatch(requestId: string, pending: Registry, message: Value, posted: bool)

  /** `crossRequest(req)`, where `requestId` is what `guid()` returns for
      this call (see `Guid.Guid`). A falsy argument does nothing; otherwise
      the callbacks are registered under the id's key (an entry already under
      that key is overwritten) and the request is posted, which succeeds
      exactly when the envelope can be cloned. */
  function CrossRequest(req: Value, token: string, requestId: string, pending: Registry): (r: Option<Dispatch>)
    ensures r.None? <==> !Truthy(req)
    ensures r.Some? ==>
      && r.value.requestId == requestId
      && var key := KeyOf(r.value.requestId);
         var d := Descriptor(req);
         && r.value.pending.Keys == pending.Keys + {key}
         && r.value.pending[key] == Entry(Get(d, "success"), Get(d, "error"))
         && (forall k :: k in pending && k != key ==> r.value.pending[k] == pending[k])
    ensures r.Some? ==> (r.value.posted <==> Cloneable(r.value.message))
    ensures r.Some? ==>
      var m := r.value.message;
      && !Nullish(m)
      && Get(m, "source") == Str(PageSource)
      && Get(m, "type") == Str(FetchType)
      && Get(m, "nodeId") == Str(token)
      && !Nullish(Get(m, "req"))
      && Get(Get(m, "req"), "requestId") == Str(r.value.requestId)
    ensures r.Some? ==> Get(r.value.message, "req") == Outgoing(Descriptor(req), requestId)
  {
    if !Truthy(req) then None
    else
      var d := Descriptor(req);
      var entry := Entry(Get(d, "success"), Get(d, "error"));
      var message := RequestEnvelope(token, Outgoing(d, requestId));
      Some(Dispatch(requestId, pending[KeyOf(requestId) := entry], message, Cloneable(message)))
  }

  /** The post goes out exactly when none of the copied fields holds a
      function; the `success` and `error` callbacks are not copied, so they
      never stop it. When it does not go out, the entry stays registered
      and nothing will ever remove it. */
  lemma PostedExactly(req: Value, token: string, requestId: string, pending: Registry)
    requires Truthy(req)
    ensures var r := CrossRequest(req, token, requestId, pending).value;
      var d := Descriptor(req);
      && (r.posted <==> forall f :: f in CopiedFields ==> Cloneable(Get(d, f)))
      && KeyOf(requestId) in r.pending
  {
    var d := Descriptor(req);
    EnvelopeCloneable(token, Outgoing(d, requestId));
    OutgoingCloneable(d, requestId);
  }

  /** The envelope can be cloned exactly when its request can. */
  lemma EnvelopeCloneable(token: string, o: Value)
    ensures Cloneable(RequestEnvelope(token, o)) <==> Cloneable(o)
  {
    var m := RequestEnvelope(token, o);
    assert m.fields["req"] == o;
  }

  /** The outgoing request can be cloned exactly when every copied field of
      the descriptor can: a default that replaces a falsy field is a plain
      value, and a falsy value is never a function. */
  lemma OutgoingCloneable(d: Value, requestId: string)
    requires !Nullish(d)
    ensures Cloneable(Outgoing(d, requestId)) <==> forall f :: f in CopiedFields ==> Cloneable(Get(d, f))
  {
    var o := Outgoing(d, requestId);
    forall f | f in CopiedFields
      ensures f in o.fields && (Cloneable(o.fields[f]) <==> Cloneable(Get(d, f)))
    {
    }
    if forall f :: f in CopiedFields ==> Cloneable(Get(d, f)) {
      forall k | k in o.fields
        ensures Cloneable(o.fields[k])
      {
        assert k == "requestId" || k in CopiedFields;
      }
    }
  }

  /** A bare URL string `s` is handled exactly as the descriptor `{url: s}`. */
  lemma StringIsUrlDescriptor(s: string, token: string, requestId: string, pending: Registry)
    requires s != ""
    ensures CrossRequest(Str(s), token, requestId, pending)
         == CrossRequest(Obj(map["url" := Str(s)]), token, requestId, pending)
  {
  }

  /** The outgoing request has exactly the eight fields of the protocol;
      `caseId` and `url` are copied and `requestId` is the drawn id. */
  lemma OutgoingFields(d: Value, requestId: string)
    requires !Nullish(d)
    ensures var o := Outgoing(d, requestId);
      && o.Obj?
      && o.fields.Keys == Defaults.Keys + {"caseId", "requestId", "url"}
      && Get(o, "caseId") == Get(d, "caseId")
      && Get(o, "url") == Get(d, "url")
      && Get(o, "requestId") == Str(requestId)
  {
  }

  /** Every defaulted field of the outgoing request is present (never
      `undefined` or `null`): it keeps the descriptor's value when that is
      truthy and takes its default otherwise. */
  lemma OutgoingDefaults(d: Value, requestId: string)
    requires !Nullish(d)
    ensures var o := Outgoing(d, requestId);
      forall f :: f in Defaults ==>
        && !Nullish(Get(o, f))
        && (Truthy(Get(d, f)) ==> Get(o, f) == Get(d, f))
        && (!Truthy(Get(d, f)) ==> Get(o, f) == Defaults[f])
  {
    var o := Outgoing(d, requestId);
    forall f | f in Defaults
      ensures Get(o, f) == Or(Get(d, f), Defaults[f])
    {
      if f == "method" {
      } else if f == "headers" {
      } else if f == "data" {
      } else if f == "taskId" {
      } else {
        assert f == "timeout";
      }
    }
  }

  /** What `crossRequest` posts: every defaulted field of the posted request
      keeps the descriptor's truthy value and otherwise takes its default,
      and `caseId` and `url` are copied. */
  lemma PostedRequestDefaults(req: Value, token: string, requestId: string, pending: Registry)
    requires Truthy(req)
    ensures var r := CrossRequest(req, token, requestId, pending).value;
      var sent := Get(r.message, "req");
      var d := Descriptor(req);
      && !Nullish(sent)
      && Get(sent, "caseId") == Get(d, "caseId")
      && Get(sent, "url") == Get(d, "url")
      && forall f :: f in Defaults ==>
           && (Truthy(Get(d, f)) ==> Get(sent, f) == Get(d, f))
           && (!Truthy(Get(d, f)) ==> Get(sent, f) == Defaults[f])
  {
    OutgoingFields(Descriptor(req), requestId);
    OutgoingDefaults(Descriptor(req), requestId);
  }

  /** A zero timeout is falsy and so becomes the 30000 ms default. */
  lemma ZeroTimeoutDefaults(d: Value, requestId: string)
    requires !Nullish(d) && Get(d, "timeout") == Num(0)
    ensures Get(Outgoing(d, requestId), "timeout") == Num(30000)
  {
  }

  /** The guard of the `message` listener (line 52), as written. */
  predicate Accepts(data: Value, token: string) {
    !(!Truthy(data) || TypeOf(data) == "string"
      || Get(data, "source") != Str(ContentSource)
      || !Truthy(Get(data, "nodeId")) || Get(data, "nodeId") != Str(token))
  }

  /** The listener acts exactly on objects tagged by the content script whose
      `nodeId` is this page's token, which must itself be non-empty. */
  lemma AcceptsExactly(data: Value, token: string)
    ensures Accepts(data, token) <==>
      && data.Obj?
      && Get(data, "source") == Str(ContentSource)
      && token != ""
      && Get(data, "nodeId") == Str(token)
  {
  }

  datatype Branch = SuccessBranch | ErrorBranch

  /** A call of the caller's own callback with the response, the response's
      `header` property and the whole message. */
  datatype Call = Call(callback: Value, res: Value, header: Value, data: Value)

  /** Why the listener throws: no pending entry under the callback's id
      (the lookup has no guard), or a callback without a `res` to read
      `header` from. A throw skips the `delete`. */
  datatype Fault = UnknownRequest | MissingResponse

  /** What one incoming message does. `Delivered` carries the branch taken,
      the caller's callback invoked (none when the descriptor held no
      function there) and the registry after the `delete`. After `Ignored`
      and `Faulted` the registry is unchanged. */
  datatype Delivery =
    | Ignored
    | Delivered(branch: Branch, call: Option<Call>, pending: Registry)
    | Faulted(fault: Fault)

  /** The registry key a callback message addresses. */
  function CallbackKey(data: Value): string
    requires !Nullish(data)
  {
    KeyOf(ToStr(Get(data, "requestId")))
  }

  /** The `message` listener. */
  function OnMessage(data: Value, token: string, pending: Registry): (r: Delivery)
    ensures !Accepts(data, token) ==> r == Ignored
    ensures Accepts(data, token) && Get(data, "type") != Str(CallbackType) ==> r == Ignored
    ensures r.Faulted? ==> Accepts(data, token) && Get(data, "type") == Str(CallbackType)
    ensures r == Faulted(UnknownRequest) <==>
      Accepts(data, token) && Get(data, "type") == Str(CallbackType) && CallbackKey(data) !in pending
    ensures r == Faulted(MissingResponse) <==>
      && Accepts(data, token) && Get(data, "type") == Str(CallbackType)
      && CallbackKey(data) in pending && Nullish(Get(data, "res"))
    ensures r.Delivered? <==>
      && Accepts(data, token) && Get(data, "type") == Str(CallbackType)
      && CallbackKey(data) in pending && !Nullish(Get(data, "res"))
    ensures r.Delivered? ==>
      && var key := CallbackKey(data);
         && (r.branch == SuccessBranch <==> Truthy(Get(data, "success")))
         && r.pending.Keys == pending.Keys - {key}
         && (forall k :: k in r.pending ==> r.pending[k] == pending[k])
         && var f := if r.branch == SuccessBranch then pending[key].success else pending[key].error;
            r.call == (if f.Func? then Some(Call(f, Get(data, "res"), Get(Get(data, "res"), "header"), data)) else None)
  {
    if !Accepts(data, token) then Ignored
    else if Get(data, "type") != Str(CallbackType) then Ignored
    else
      var key := CallbackKey(data);
      if key !in pending then Faulted(UnknownRequest)
      else
        var res := Get(data, "res");
        if Nullish(res) then Faulted(MissingResponse)
        else
          var entry := pending[key];
          var branch := if Truthy(Get(data, "success")) then SuccessBranch else ErrorBranch;
          var f := if branch == SuccessBranch then entry.success else entry.error;
          var call := if TypeOf(f) == "function" then Some(Call(f, res, Get(res, "header"), data)) else None;
          Delivered(branch, call, pending - {key})
  }

  /** A callback answering a dispatched request reaches the callbacks of that
      request and removes exactly its entry: when the id was fresh the
      registry returns to what it was before the dispatch. */
  lemma DispatchThenDeliver(req: Value, token: string, requestId: string, pending: Registry, data: Value)
    requires Truthy(req)
    requires Accepts(data, token) && Get(data, "type") == Str(CallbackType)
    requires CallbackKey(data) == KeyOf(requestId) && !Nullish(Get(data, "res"))
    ensures var dsp := CrossRequest(req, token, requestId, pending).value;
      var dl := OnMessage(data, token, dsp.pending);
      var d := Descriptor(req);
      var key := KeyOf(requestId);
      && dl.Delivered?
      && (dl.branch == SuccessBranch <==> Truthy(Get(data, "success")))
      && dl.pending == pending - {key}
      && (key !in pending ==> dl.pending == pending)
      && var f := if dl.branch == SuccessBranch then Get(d, "success") else Get(d, "error");
         && (dl.call.Some? <==> f.Func?)
         && (dl.call.Some? ==> dl.call.value.callback == f && dl.call.value.data == data)
  {
    var dsp := CrossRequest(req, token, requestId, pending).value;
    var key := KeyOf(requestId);
    assert dsp.pending == pending[key := Entry(Get(Descriptor(req), "success"), Get(Descriptor(req), "error"))];
    assert dsp.pending - {key} == pending - {key};
  }
}

=== FILE: protocol.dfy ===
/** The vocabulary of the relay protocol shared by its three hops. */
module Protocol {

  /** `source` tag of a request posted by the page client. */
  const PageSource := "cross_request_page"

  /** `source` tag the content script puts on callbacks it relays to the page. */
  const ContentSource := "cross_request_content"

  /** `type` of a request message. */
  const FetchType := "fetch"

  /** `type` of the broker's answer to a request. */
  const CallbackType := "fetch_callback"

  /** Name of the port the content script opens to the service worker. */
  const PortName := "cross_request-bridge"
}

=== FILE: relay.dfy ===
/** The three hops put together: a request the page client dispatches is
    forwarded by the content script, answered by the broker, relayed back and
    delivered to the caller's callbacks. */
module Relay {
  import opened Wrappers
  import opened JsValue
  import opened Protocol
  import PageClient
  import ContentBridge
  import Broker

  /** The request part of the envelope `crossRequest` posts. */
  function SentRequest(req: Value, requestId: string): Value
    requires Truthy(req)
  {
    PageClient.Outgoing(PageClient.Descriptor(req), requestId)
  }

  /** The callback the page receives for a dispatched request, after the
      broker answered it with `outcome` and the content script relayed it. */
  function Answer(req: Value, token: string, requestId: string, pending: PageClient.Registry,
                  outcome: Broker.FetchOutcome, parse: string -> Option<Value>): (r: Option<Value>)
    requires Truthy(req)
  {
    var dsp := PageClient.CrossRequest(req, token, requestId, pending).value;
    if !dsp.posted then None
    else match ContentBridge.FromPage(dsp.message, token)
    case None => None
    case Some(fwd) =>
      match Broker.OnPortMessage(PortName, fwd, outcome, parse)
      case None => None
      case Some(cb) => ContentBridge.FromBroker(cb)
  }

  /** Round trip: with a non-empty page token and a request the broker can
      start, exactly one callback comes back to the page. It carries the
      request's id and token, success exactly when the fetch resolved, and
      the response envelope or the rejection reason. */
  lemma AnswerShape(req: Value, token: string, requestId: string, pending: PageClient.Registry,
                    outcome: Broker.FetchOutcome, parse: string -> Option<Value>)
    requires Truthy(req) && token != ""
    requires Cloneable(SentRequest(req, requestId))
    requires Broker.FetchData(SentRequest(req, requestId)).Success?
    ensures var a := Answer(req, token, requestId, pending, outcome, parse);
      && a.Some?
      && !Nullish(a.value)
      && Get(a.value, "source") == Str(ContentSource)
      && Get(a.value, "type") == Str(CallbackType)
      && Get(a.value, "nodeId") == Str(token)
      && Get(a.value, "requestId") == Str(requestId)
      && Get(a.value, "success") == Bool(outcome.Resolved?)
      && (outcome.Resolved? ==> Get(a.value, "res") == Broker.ResponseEnvelope(outcome.response, parse))
      && (outcome.Rejected? ==> Get(a.value, "res") == outcome.reason)
  {
    var dsp := PageClient.CrossRequest(req, token, requestId, pending).value;
    var m := dsp.message;
    PageClient.EnvelopeCloneable(token, SentRequest(req, requestId));
    assert dsp.posted;
    ContentBridge.PageRequestsAreForwarded(req, token, requestId, pending);
    assert ContentBridge.FromPage(m, token) == Some(m);
    assert Get(m, "req") == SentRequest(req, requestId);
    var cb := Broker.OnPortMessage(PortName, m, outcome, parse);
    assert cb.Some?;
    var back := ContentBridge.FromBroker(cb.value);
    assert back.Some?;
    assert Answer(req, token, requestId, pending, outcome, parse) == back;
    RelayedFields(cb.value);
  }

  /** What the relay keeps of a callback. */
  lemma RelayedFields(cb: Value)
    requires ContentBridge.FromBroker(cb).Some?
    ensures var out := ContentBridge.FromBroker(cb).value;
      && !Nullish(out) && !Nullish(cb)
      && Get(out, "source") == Str(ContentSource)
      && Get(out, "type") == Get(cb, "type")
      && Get(out, "nodeId") == Get(cb, "nodeId")
      && Get(out, "requestId") == Get(cb, "requestId")
      && Get(out, "success") == Get(cb, "success")
      && Get(out, "res") == Get(cb, "res")
  {
  }

  /** The answer to a dispatched request passes the page's filter and
      addresses the entry the dispatch registered. */
  lemma AnswerAddressesEntry(req: Value, token: string, requestId: string, pending: PageClient.Registry,
                             outcome: Broker.FetchOutcome, parse: string -> Option<Value>)
    requires Truthy(req) && token != ""
    requires Cloneable(SentRequest(req, requestId))
    requires Broker.FetchData(SentRequest(req, requestId)).Success?
    ensures Answer(req, token, requestId, pending, outcome, parse).Some?
    ensures var dsp := PageClient.CrossRequest(req, token, requestId, pending).value;
      var a := Answer(req, token, requestId, pending, outcome, parse).value;
      && !Nullish(a)
      && PageClient.Accepts(a, token)
      && Get(a, "type") == Str(CallbackType)
      && PageClient.CallbackKey(a) == PageClient.KeyOf(requestId)
      && PageClient.KeyOf(requestId) in dsp.pending
      && (Truthy(Get(a, "success")) <==> outcome.Resolved?)
      && (Nullish(Get(a, "res")) <==> outcome.Rejected? && Nullish(outcome.reason))
  {
    AnswerShape(req, token, requestId, pending, outcome, parse);
    var a := Answer(req, token, requestId, pending, outcome, parse).value;
    PageClient.AcceptsExactly(a, token);
  }

  /** The page hands answer `a` to the request's callbacks: the listener
      delivers it, takes the success branch exactly when the fetch resolved,
      calls the descriptor's callback for that branch when it is a function,
      and leaves the registry as it was before the dispatch minus the
      request's key. */
  predicate DeliversTo(req: Value, token: string, requestId: string, pending: PageClient.Registry,
                       outcome: Broker.FetchOutcome, a: Value)
    requires Truthy(req)
  {
    var dsp := PageClient.CrossRequest(req, token, requestId, pending).value;
    var dl := PageClient.OnMessage(a, token, dsp.pending);
    var d := PageClient.Descriptor(req);
    var key := PageClient.KeyOf(requestId);
    && dl.Delivered?
    && (dl.branch == PageClient.SuccessBranch <==> outcome.Resolved?)
    && dl.pending == pending - {key}
    && (key !in pending ==> dl.pending == pending)
    && var f := if outcome.Resolved? then Get(d, "success") else Get(d, "error");
       && (dl.call.Some? <==> f.Func?)
       && (dl.call.Some? ==> dl.call.value.callback == f && dl.call.value.data == a)
  }

  /** Round trip, page side: the answer runs the caller's success callback
      when the fetch resolved and its error callback when it was rejected,
      and afterwards the registry has lost exactly the request's entry, so a
      fresh id leaves it as it was before the call. */
  lemma RoundTrip(req: Value, token: string, requestId: string, pending: PageClient.Registry,
                  outcome: Broker.FetchOutcome, parse: string -> Option<Value>)
    requires Truthy(req) && token != ""
    requires Cloneable(SentRequest(req, requestId))
    requires Broker.FetchData(SentRequest(req, requestId)).Success?
    requires outcome.Resolved? || !Nullish(outcome.reason)
    ensures Answer(req, token, requestId, pending, outcome, parse).Some?
    ensures DeliversTo(req, token, requestId, pending, outcome, Answer(req, token, requestId, pending, outcome, parse).value)
  {
    AnswerAddressesEntry(req, token, requestId, pending, outcome, parse);
    var a := Answer(req, token, requestId, pending, outcome, parse).value;
    DeliverAnswer(req, token, requestId, pending, outcome, a);
  }

  /** The page-side step of the round trip, for any answer with the shape
      `AnswerAddressesEntry` establishes. */
  lemma DeliverAnswer(req: Value, token: string, requestId: string, pending: PageClient.Registry,
                      outcome: Broker.FetchOutcome, a: Value)
    requires Truthy(req) && !Nullish(a)
    requires PageClient.Accepts(a, token) && Get(a, "type") == Str(CallbackType)
    requires PageClient.CallbackKey(a) == PageClient.KeyOf(requestId)
    requires Truthy(Get(a, "success")) <==> outcome.Resolved?
    requires !Nullish(Get(a, "res"))
    ensures DeliversTo(req, token, requestId, pending, outcome, a)
  {
    PageClient.DispatchThenDeliver(req, token, requestId, pending, a);
  }

  /** A rejection without a reason leaves the callback without a `res`, and
      the page's listener throws on reading its `header`: no callback runs
      and the entry stays registered. */
  lemma ReasonlessRejectionFaults(req: Value, token: string, requestId: string, pending: PageClient.Registry,
                                  reason: Value, parse: string -> Option<Value>)
    requires Truthy(req) && token != "" && Nullish(reason)
    requires Cloneable(SentRequest(req, requestId))
    requires Broker.FetchData(SentRequest(req, requestId)).Success?
    ensures Answer(req, token, requestId, pending, Broker.Rejected(reason), parse).Some?
    ensures var dsp := PageClient.CrossRequest(req, token, requestId, pending).value;
      var a := Answer(req, token, requestId, pending, Broker.Rejected(reason), parse).value;
      PageClient.OnMessage(a, token, dsp.pending) == PageClient.Faulted(PageClient.MissingResponse)
  {
    AnswerAddressesEntry(req, token, requestId, pending, Broker.Rejected(reason), parse);
  }

  /** Pages do not see each other's answers: a page whose token differs from
      the requesting page's ignores the callback, whatever its registry. */
  lemma OtherPagesIgnore(req: Value, token: string, requestId: string, pending: PageClient.Registry,
                         outcome: Broker.FetchOutcome, parse: string -> Option<Value>,
                         otherToken: string, otherPending: PageClient.Registry)
    requires Truthy(req) && token != "" && otherToken != token
    requires Cloneable(SentRequest(req, requestId))
    requires Broker.FetchData(SentRequest(req, requestId)).Success?
    ensures Answer(req, token, requestId, pending, outcome, parse).Some?
    ensures var a := Answer(req, token, requestId, pending, outcome, parse).value;
      PageClient.OnMessage(a, otherToken, otherPending) == PageClient.Ignored
  {
    AnswerShape(req, token, requestId, pending, outcome, parse);
    var a := Answer(req, token, requestId, pending, outcome, parse).value;
    PageClient.AcceptsExactly(a, otherToken);
  }

  /** A request whose copied fields hold a function never leaves the page:
      the post throws, no answer comes back, and the entry it registered
      stays on the window. */
  lemma UncloneableGetsNoAnswer(req: Value, token: string, requestId: string, pending: PageClient.Registry,
                                outcome: Broker.FetchOutcome, parse: string -> Option<Value>)
    requires Truthy(req) && !Cloneable(SentRequest(req, requestId))
    ensures Answer(req, token, requestId, pending, outcome, parse).None?
    ensures PageClient.KeyOf(requestId) in PageClient.CrossRequest(req, token, requestId, pending).value.pending
  {
    PageClient.EnvelopeCloneable(token, SentRequest(req, requestId));
  }
}

=== FILE: settings.dfy ===
/** The settings panel's save handler (js/popup.js:20-55): the three numeric
    inputs are parsed, checked in order with an early exit on the first
    failure, and only a fully valid configuration is sent as `updateConfig`.
    `parseInt` is outside the model: an input is `Some(n)` for the integer it
    parsed to and `None` for NaN. */
module Settings {
  import opened Wrappers
  import opened JsValue

  const MinTimeout := 1000
  const MinRetries := 0
  const MaxRetries := 10
  const MinRetryDelay := 100

  const TimeoutMessage := "超时时间必须大于等于1000毫秒"
  const RetriesMessage := "重试次数必须在0-10之间"
  const RetryDelayMessage := "重试延迟时间必须大于等于100毫秒"
  const SavedMessage := "配置已保存"
  const SaveFailedPrefix := "保存失败: "
  const UnknownError := "未知错误"

  /** The configuration the panel edits. */
  datatype Config = Config(timeout: int, maxRetries: int, retryDelay: int)

  /** The checked fields, in the order they are checked. */
  datatype Field = Timeout | Retries | RetryDelay

  /** The bounds the panel enforces; neither `timeout` nor `retryDelay` has
      an upper bound. */
  predicate InBounds(c: Config) {
    && c.timeout >= MinTimeout
    && MinRetries <= c.maxRetries <= MaxRetries
    && c.retryDelay >= MinRetryDelay
  }

  /** Checks of lines 28, 32 and 36, as written. */
  predicate TimeoutRejected(t: Option<int>) {
    t.None? || t.value < 1000
  }

  predicate RetriesRejected(m: Option<int>) {
    m.None? || m.value < 0 || m.value > 10
  }

  predicate RetryDelayRejected(d: Option<int>) {
    d.None? || d.value < 100
  }

  /** The validation chain: the first failing check names the field. */
  function Validate(t: Option<int>, m: Option<int>, d: Option<int>): (r: Result<Config, Field>)
    ensures r.Success? <==>
      t.Some? && m.Some? && d.Some? && InBounds(Config(t.value, m.value, d.value))
    ensures r.Success? ==>
      t.Some? && m.Some? && d.Some? && r.value == Config(t.value, m.value, d.value) && InBounds(r.value)
  {
    if TimeoutRejected(t) then Failure(Timeout)
    else if RetriesRejected(m) then Failure(Retries)
    else if RetryDelayRejected(d) then Failure(RetryDelay)
    else Success(Config(t.value, m.value, d.value))
  }

  /** The checks run in order and the first failure decides: a bad timeout
      is reported whatever the other inputs are, a bad retry count only
      after a good timeout, a bad delay only after both others passed. */
  lemma ValidateOrder(t: Option<int>, m: Option<int>, d: Option<int>)
    ensures var timeoutOk := t.Some? && t.value >= MinTimeout;
      var retriesOk := m.Some? && MinRetries <= m.value <= MaxRetries;
      var delayOk := d.Some? && d.value >= MinRetryDelay;
      && (Validate(t, m, d) == Failure(Timeout) <==> !timeoutOk)
      && (Validate(t, m, d) == Failure(Retries) <==> timeoutOk && !retriesOk)
      && (Validate(t, m, d) == Failure(RetryDelay) <==> timeoutOk && retriesOk && !delayOk)
  {
  }

  /** Every configuration within the bounds, entered as such, is accepted
      unchanged. */
  lemma ValidateAcceptsInBounds(c: Config)
    requires InBounds(c)
    ensures Validate(Some(c.timeout), Some(c.maxRetries), Some(c.retryDelay)) == Success(c)
  {
  }

  /** A status line and whether it shows as success. */
  datatype Status = Status(text: string, isSuccess: bool)

  /** A click either shows a failure status and stops, or sends a message. */
  datatype Click = Refused(status: Status) | Sent(message: Value)

  function FieldMessage(f: Field): string {
    match f
    case Timeout => TimeoutMessage
    case Retries => RetriesMessage
    case RetryDelay => RetryDelayMessage
  }

  /** The `config` object of `updateConfig`. */
  function ConfigValue(c: Config): Value {
    Obj(map[
      "timeout" := Num(c.timeout),
      "maxRetries" := Num(c.maxRetries),
      "retryDelay" := Num(c.retryDelay)
    ])
  }

  /** The save button's click handler up to the message it sends. */
  function OnSave(t: Option<int>, m: Option<int>, d: Option<int>): (r: Click)
    ensures r.Refused? <==> Validate(t, m, d).Failure?
    ensures r.Refused? ==> !r.status.isSuccess && r.status.text == FieldMessage(Validate(t, m, d).error)
    ensures r.Sent? ==>
      && r.message.Obj?
      && r.message.fields.Keys == {"type", "config"}
      && Get(r.message, "type") == Str("updateConfig")
      && var cfg := Get(r.message, "config");
         && cfg.Obj?
         && cfg.fields.Keys == {"timeout", "maxRetries", "retryDelay"}
         && cfg == ConfigValue(Validate(t, m, d).value)
  {
    match Validate(t, m, d)
    case Failure(f) => Refused(Status(FieldMessage(f), false))
    case Success(c) => Sent(Obj(map["type" := Str("updateConfig"), "config" := ConfigValue(c)]))
  }

  /** Only validated values reach `updateConfig`: whatever is sent is a
      configuration within the bounds, made of exactly the entered numbers. */
  lemma SentConfigInBounds(t: Option<int>, m: Option<int>, d: Option<int>)
    requires OnSave(t, m, d).Sent?
    ensures t.Some? && m.Some? && d.Some?
    ensures var c := Config(t.value, m.value, d.value);
      InBounds(c) && Get(OnSave(t, m, d).message, "config") == ConfigValue(c)
  {
  }

  /** How the `updateConfig` round trip ended: the response value, or the
      message of the error `sendMessage` rejected with. */
  datatype Reply = Answered(response: Value) | Threw(message: string)

  /** The engine's message for reading `success` off a missing response. */
  function ReadSuccessError(response: Value): string {
    "Cannot read properties of " + ToStr(response) + " (reading 'success')"
  }

  /** The status shown for the reply (lines 47-53). */
  function ReplyStatus(reply: Reply): (s: Status)
    ensures s.isSuccess <==> reply.Answered? && !Nullish(reply.response) && Truthy(Get(reply.response, "success"))
    ensures s.isSuccess ==> s.text == SavedMessage
    ensures !s.isSuccess ==> SaveFailedPrefix <= s.text
  {
    match reply
    case Threw(message) => Status(SaveFailedPrefix + message, false)
    case Answered(response) =>
      if Nullish(response) then Status(SaveFailedPrefix + ReadSuccessError(response), false)
      else if Truthy(Get(response, "success")) then Status(SavedMessage, true)
      else Status(SaveFailedPrefix + ToStr(Or(Get(response, "error"), Str(UnknownError))), false)
  }

  /** A falsy answer shows its `error` text, or the unknown-error text when
      there is none. */
  lemma FailedReplyText(response: Value)
    requires !Nullish(response) && !Truthy(Get(response, "success"))
    ensures var e := Get(response, "error");
      && (e.Str? && e.s != "" ==> ReplyStatus(Answered(response)).text == SaveFailedPrefix + e.s)
      && (!Truthy(e) ==> ReplyStatus(Answered(response)).text == SaveFailedPrefix + UnknownError)
  {
  }
}

=== FILE: wrappers.dfy ===
/** Failure-compatible result types shared by the relay's modules. */
module Wrappers {

  /** An optional value: `None` where the scripts produce nothing. */
  datatype Option<+T> = None | Some(value: T) {

    predicate IsFailure() {
      None?
    }

    function PropagateFailure<U>(): Option<U>
      requires None?
    {
      None
    }

    function Extract(): T
      requires Some?
    {
      value
    }
  }

  /** Either a value or the error that stopped its computation. */
  datatype Result<+R, +E> = Success(value: R) | Failure(error: E) {

    predicate IsFailure() {
      Failure?
    }

    function PropagateFailure<U>(): Result<U, E>
      requires Failure?
    {
      Failure(error)
    }

    function Extract(): R
      requires Success?
    {
      value
    }
  }
}
